=== FILE: README.md ===
# SnipSnap snippet manager — a Dafny model

SnipSnap is a terminal snippet manager. A keyboard-driven menu lets the user
view, add or delete code snippets. The snippets are kept in a flat text file,
`snippets.txt`. This project models the two parts of `main.go` that hold logic,
and proves properties about them:

- **The snippet store.** Each snippet is saved as one line,
  `<id>|||<name>|||<language>|||<code in base64>`. The encoding is standard
  base64 with padding, as in section 4 of RFC 4648. On load, each line is
  split on `|||`, and only lines with exactly four fields are kept. The id is
  read with `Atoi`, and an id that does not parse becomes 0. The code is
  decoded from base64. The new-snippet id is the largest id plus one.
- **The key-event state machine (`Update`).** It has four modes: menu, view,
  add and delete. Esc outside the menu resets to the menu, and a key named
  `q` quits. The add mode steps through three fields (name, language, code),
  and Ctrl+S commits the draft. The delete mode has a selection that
  up/down move and Enter removes. The store is rewritten after every add
  and every delete.

Go strings are byte strings, so every stored field, both widget texts and the
store file are modelled as `seq<byte>`. Ids are unbounded integers.

Files, one module each:

| file | module | models |
|---|---|---|
| `wrappers.dfy` | `Wrappers` | `Option` |
| `text.dfy` | `Text` | bytes and the byte constants the program uses |
| `base64.dfy` | `Base64` | the standard padded base64 encoder and decoder |
| `strings.dfy` | `Strings` | `strings.Index` and `strings.Split`, which the loader uses, and `strings.Join`, used only to state the record format |
| `strconv.dfy` | `Strconv` | `strconv.Itoa`, `strconv.Atoi` |
| `scanner.dfy` | `Scanner` | the lines the writer produces and the lines `bufio.ScanLines` reads |
| `snippets.dfy` | `Snippets` | `snippet`, `generateID`, removal by index |
| `store.dfy` | `Store` | `saveSnippets`, `loadSnippets` |
| `app.dfy` | `App` | the model record, `Update`, `resetState` |

The terminal widgets are passed to `App.Update` as a `Widgets` value. It
holds three functions, one each for the menu list, the one-line input and
the code editor. Each function maps a widget's current value and a key to
its new value and to whether the command the widget returns quits the
program. `App.Handle` is the program's own handling of a key. Unless it
quits or returns early, `App.Forward` then hands the key to the widgets,
and the reply carries the quit flag of the last widget that saw the key.
The properties of `Update` hold for every choice of widget functions.
A save appears in the model as the file contents the program writes
(`Reply.written`).

Points of behaviour worth knowing, all of which the model follows:

- A key named `q` quits in every mode, including while the add step
  collects the name, language or code. A key event whose name is exactly
  `q` quits, so a lone q keystroke cannot be typed into a snippet. `App.QuitKey` states this behaviour.
- Esc clears the draft and both texts, but it leaves the delete selection
  alone. `resetState` does not touch the selection. Entering the delete mode
  sets it to 0 anyway.
- Ids are not guaranteed to be unique or at least 1. Loading accepts
  duplicate ids and the id 0, because an unparsable id becomes 0. And Go's
  `maxID + 1` wraps around when a stored id is the largest 64-bit integer,
  which the model's unbounded ids do not show (see "## Left out").
  Uniqueness is therefore proved as something every key preserves
  (`App.UpdateKeepsUniqueIds`), not as something that always holds.
- The program handles Ctrl+C itself only in the menu. Esc in the menu, and
  Ctrl+C in every other mode, go to the widgets, whose command can quit.
  The list widget's default key map quits on Esc and on Ctrl+C, so with it
  Esc in the menu ends the program. `App.QuitExactly` states the quit
  condition in terms of the widgets' commands.

## Model

| member | source | states |
|---|---|---|
| `Snippets.MaxId` | main.go:373-378 | The scan's result is at least 0 and at least every id. It is 0 or equal to some snippet's id. |
| `Snippets.GenerateId` | main.go:372-380 | The new id is at least 1 and strictly above every existing id. It is either 1 or one more than an existing id, so it equals max(0, max ids) + 1. |
| `Snippets.RemoveAt` | main.go:212 | Removing index k drops exactly one snippet. The snippets before k keep their positions, those after k shift down by one, and the multiset loses exactly the k-th snippet. |
| `Snippets.AppendFreshKeepsUnique` | main.go:203-204 | Appending a snippet that carries the generated id keeps ids unique. |
| `Snippets.RemoveKeepsUnique` | main.go:211-212 | Deleting a snippet keeps ids unique. |
| `Snippets.IdReuseAfterDelete` | main.go:372-380 | With ids 1, 2, 3, deleting the third snippet makes 3 the next generated id. Ids can be reused. |
| `Base64.Letter` | main.go:367 | No alphabet letter is the pad character. |
| `Base64.ValueOf` | main.go:345 | The decoder's letter table inverts `Letter` on the 64 letters. Every other byte, the pad included, has no value. |
| `Base64.ValueOfLetter` | main.go:345 | Looking up the value of the letter for v gives back v. |
| `Base64.Encode` | main.go:367 | The encoding has length 4·⌈n/3⌉, and every byte of it is a letter of the alphabet or `=`. |
| `Base64.Decode` | main.go:345 | Decoding succeeds only when the length is a multiple of 4 and every byte is in the alphabet. The output has at most 3 bytes per 4 input bytes. |
| `Base64.TripleRoundTrip` | main.go:345-367 | Decoding the four letters for any three bytes gives back those three bytes. |
| `Base64.RoundTrip` | main.go:345-367 | Decoding the encoding of any byte sequence gives back exactly that sequence. |
| `Base64.EncodeIsLineSafe` | main.go:366-368 | The encoding never contains a pipe character or a line feed, and never ends in a carriage return. |
| `Strings.IndexFrom` | main.go:342 | The search finds the first occurrence of the separator at or after the start. If there is none, it says so. |
| `Strings.AbsentFirstByte` | main.go:342 | Text that lacks the separator's first byte contains no occurrence of the separator. |
| `Strings.Split` | main.go:342 | Splitting always yields at least one piece. |
| `Strings.JoinSplit` | main.go:342 | Joining the pieces of a split with the separator restores the original line, whatever it holds. |
| `Strings.SplitJoin` | main.go:342-343 | Splitting a join gives back the same pieces, provided no piece contains the separator's first byte. |
| `Strconv.Digits` | main.go:368 | The decimal form of a natural number is non-empty, contains only digits, and has no leading zero. |
| `Strconv.Itoa` | main.go:368 | The printed id never contains a pipe character or a line feed. |
| `Strconv.Atoi` | main.go:344 | Parsing succeeds only on non-empty text. |
| `Strconv.AtoiAcceptsDigits` | main.go:344 | A non-empty run of decimal digits parses to its value, unsigned, after a plus sign, and negated after a minus sign. |
| `Strconv.AtoiItoa` | main.go:344 | Every integer printed with `%d` parses back to the same integer. |
| `Strconv.AtoiRejectsNonDigit` | main.go:344 | A byte that is not a digit, after the optional sign, makes the parse fail. `loadSnippets` then uses id 0. |
| `Scanner.DropCR` | main.go:341 | A line loses only a trailing carriage return, if it has one. |
| `Scanner.ScanLines` | main.go:340-341 | Empty data reads as no lines, and non-empty data reads as at least one line. |
| `Scanner.ScanUnlines` | main.go:341 | Lines written one per line feed are read back exactly, if none contains a line feed or ends in a carriage return. |
| `Store.FormatLine` | main.go:367-368 | A snippet's record is its printed id, name, language and base64 code joined by the three-pipe delimiter. A storable snippet's record has no line feed and does not end in a carriage return. |
| `Store.SaveLines` | main.go:365-369 | A save writes exactly one record per snippet, in collection order. |
| `Store.Save` | main.go:358-369 | The file is empty exactly when the collection is. When every snippet is storable, the line scanner reads the file back as exactly the records, in order. |
| `Store.ParseLine` | main.go:342-351 | A line yields a snippet exactly when it splits into four fields. Name and language are fields 2 and 3 as written. The id is the parsed first field, or 0 when it does not parse. The code is the decoded fourth field, or empty when it is not valid base64. |
| `Store.LoadLines` | main.go:339-354 | Loading yields at most one snippet per line. |
| `Store.ParseFormatLine` | main.go:342-351 | Take a snippet whose name and language contain no pipe character and no line feed. Its record parses back to the same id, name, language and code. |
| `Store.LoadSaveLines` | main.go:341-369 | Parsing the saved records of storable snippets gives back the collection. |
| `Store.Load` | main.go:332-354 | A store that cannot be opened, or an empty one, loads as the empty collection. Otherwise there is at most one snippet per line. |
| `Store.LoadSave` | main.go:332-369 | Loading the file a save wrote gives back the same collection, in order, when every snippet is storable. |
| `Store.LoadLinesAppend` | main.go:341-353 | Loading keeps file order. The snippets from two runs of lines appear one after the other. |
| `Store.LoadOneLine` | main.go:342-351 | A line is skipped exactly when it does not split into four fields. An id field that does not parse becomes 0. Name and language are taken as written. |
| `Store.LoadDecodesCode` | main.go:345-350 | A record whose code field is the base64 of some bytes loads with exactly those bytes as code, line feeds included. |
| `App.Init` | main.go:111-118 | The program starts in the menu over the collection loaded from the store file, with the menu cursor and delete selection at 0, in a state that satisfies the state invariant. |
| `App.ResetState` | main.go:308-316 | Reset returns to the menu with field 0, a blank draft and both texts empty. The collection, the delete selection and the menu cursor are unchanged. |
| `App.Handle` | main.go:137-224 | The program itself quits exactly on `q`, on Ctrl+C in the menu, or on Enter on the menu's Quit entry. A write is always of the collection after the key, and the collection never changes without one. Every outcome keeps the state invariant. |
| `App.Forward` | main.go:227-236 | The menu list always sees the key, and in the add mode so does the widget for the current field. Only the widgets' values change. The quit flag is that of the text widget in the add mode and of the list otherwise. |
| `App.Update` | main.go:125-236 | Whenever the store is written, it is written from the collection as it is after the key. The collection never changes without a write. When the program itself quits, the state is unchanged and nothing is written. An early return (Esc reset, Ctrl+S commit) never quits. Every key keeps the field index in {0,1,2} and the delete selection on the list, and outside add mode the draft and both texts stay clear. |
| `App.EscLeavesToMenu` | main.go:138-148 | Esc outside the menu returns to the menu. It clears the field index, the draft and both texts, keeps the collection, and writes nothing. |
| `App.EscInMenu` | main.go:137-236 | Esc in the menu is not handled by the program. Only the menu list sees it, and the program quits exactly when the list's command quits. |
| `App.QuitKey` | main.go:151-154 | A key named `q` quits from every mode, the add step's text entry included, and changes nothing. |
| `App.QuitExactly` | main.go:151-236 | The program quits exactly on `q`, on Ctrl+C in the menu, on Enter when the menu is on Quit, or when the key is passed on and the last widget to see it returns a quitting command. |
| `App.MenuEnter` | main.go:160-179 | Enter in the menu on View enters the view mode. On Add it enters the add mode with field 0, a blank draft and a cleared input. On Delete it enters the delete mode with selection 0. Off the entries the menu stays, and on Quit the program quits unchanged. None of them changes the collection or writes the store. |
| `App.ViewIsReadOnly` | main.go:222-223 | The view mode never changes the collection or writes the store. It is left exactly on Esc. |
| `App.AddEnterName` | main.go:186-190 | Enter on field 0 stores the typed name in the draft, clears the input and moves to field 1. |
| `App.AddEnterLanguage` | main.go:191-195 | Enter on field 1 stores the typed language, clears the input and moves to field 2. The Enter key itself then goes to the code editor, and the quit flag is the editor's. |
| `App.SaveNeedsCodeField` | main.go:199-200 | Ctrl+S before field 2 changes neither the collection, the store nor the field. |
| `App.SaveAppends` | main.go:199-207 | Ctrl+S on field 2 appends exactly one snippet built from the draft and the editor text. Its id is above every existing id, and the existing snippets are unchanged. The store is written and the state returns to a reset menu. |
| `App.DeleteInRange` | main.go:210-216 | Enter with the selection in range removes exactly that snippet and keeps the others in order. It writes the store and returns to the menu with selection 0. |
| `App.DeleteOutOfRange` | main.go:210-216 | Enter with the selection out of range, as on an empty collection, changes nothing and writes nothing. It still returns to the menu with selection 0. |
| `App.DeleteNavigation` | main.go:217-221 | Up moves the selection one row up unless it is on the first row. Down moves it one row down unless it is on the last. Any other key leaves it. The selection stays in [0, max(0, n-1)], nothing is written, and the quit flag is the list's. |
| `App.PassesUnhandled` | main.go:137-236 | A key the program does not act on reaches the widgets with the state unchanged: in the menu anything but Enter and Ctrl+C, in the view mode anything but Esc and `q`, in the add mode anything but Enter on the name or language field and Ctrl+S on the code field, and in the delete mode anything but Enter, up and down. |
| `App.WritesExactly` | main.go:199-214 | The store is written exactly by Ctrl+S on field 2 and by Enter on a delete row in range. |
| `App.UpdateKeepsUniqueIds` | main.go:203-212 | Every key keeps ids unique. |
| `App.RunKeepsInv` | main.go:125-236 | Any sequence of keys, up to a quit, keeps the invariant and unique ids. |
| `App.WrittenStoreReloads` | main.go:203-213 | A store written after an add or a delete loads back as the collection in memory, when every snippet is storable. |

## Left out

- Rendering: the lipgloss styles and `View()` (main.go:21-45, main.go:239-306). They are presentation only.
- The bubbletea runtime, `WindowSizeMsg`, and the internals of the list, textinput and textarea widgets (main.go:125-131, main.go:227-236). These are library code. The widgets are abstract functions in `App.Widgets`. Their focus and placeholder text are not modelled. Messages other than keys, such as cursor blinks, are not modelled. Of the widgets' commands only whether they quit is modelled.
- The debug logger, `debug.log`, `main`, exit codes and the alternate screen (main.go:103-109, main.go:318-330). These are I/O and process plumbing.
- Real file I/O (main.go:333-336, main.go:358-362). `Store.Load` takes `None` for a store that cannot be opened. A save is modelled by the bytes it writes. A failed write is not modelled.
- Base64.Decode: Go's decoder skips carriage returns and line feeds inside the text, and on corrupt input it returns the bytes decoded before the error. The model rejects such text with `None`.
- Store.ParseLine: because of the `Base64.Decode` line above, a code field that is corrupt base64 loads as empty code rather than as the bytes decoded before the error. A code field holding carriage returns or line feeds also loads as empty code.
- Snippets.GenerateId: Go computes `maxID + 1` in 64-bit `int`, which wraps to -2^63 when a stored id is 9223372036854775807 (Atoi accepts that id). The new id is then not above every id and can duplicate one, so `Snippets.AppendFreshKeepsUnique` and `App.UpdateKeepsUniqueIds` hold only for ids below that bound. Ids are modelled as unbounded integers.
- Strconv.Atoi: out-of-range ids (Go's 64-bit `int`) are not modelled. Ids are unbounded integers.
- Scanner.ScanLines: the 64 KiB token limit of `bufio.Scanner` is not modelled.
- Strings.Split: the empty-separator branch of Go's `strings.Split` is not modelled. The program splits only on `|||`.
- App.Key: Go names typed text with an alt modifier `alt+…` and pasted text `[…]`. `Runes` stands for plain typed text, named by the text itself.

=== FILE: app.dfy ===
/**
 * The key-driven state machine of the snippet manager: four modes, a
 * three-field add step, a delete list, and the store rewritten after each
 * change. The list, one-line input and code editor widgets are supplied by
 * the environment as functions from (current value, key) to the new value
 * and whether the command they return quits the program.
 */
module App {
  import opened Wrappers
  import opened Text
  import opened Snippets
  import Store

  datatype Mode = Menu | View | Add | Delete

  /**
   * A key event as the terminal runtime reports it: special keys by type,
   * `Runes` for typed text, `Other` for any remaining key by its name.
   */
  datatype Key = Esc | Enter | CtrlC | CtrlS | Up | Down | Runes(text: string) | Other(name: string) {

    /** The key's name as the runtime spells it. */
    function Name(): string {
      match this
      case Esc => "esc"
      case Enter => "enter"
      case CtrlC => "ctrl+c"
      case CtrlS => "ctrl+s"
      case Up => "up"
      case Down => "down"
      case Runes(t) => t
      case Other(n) => n
    }
  }

  datatype MenuItem = ViewSnippets | AddSnippet | DeleteSnippet | QuitItem

  /** The main menu's entries, top to bottom. */
  const MenuItems: seq<MenuItem> := [ViewSnippets, AddSnippet, DeleteSnippet, QuitItem]

  /** The entry under the menu cursor, if the cursor is on one. */
  function SelectedItem(cursor: int): Option<MenuItem> {
    if 0 <= cursor < |MenuItems| then Some(MenuItems[cursor]) else None
  }

  /**
   * The application state. `input` and `textarea` are the texts of the
   * one-line input and of the code editor; `cursor` is the menu list's
   * highlighted row.
   */
  datatype Model = Model(
    snippets: seq<Snippet>,
    mode: Mode,
    input: Bytes,
    textarea: Bytes,
    currentField: int,
    draft: Snippet,
    selectedItem: int,
    cursor: int)

  /**
   * How each widget reacts when it is handed a key: its new value, and
   * whether the command it returns quits the program.
   */
  datatype Widgets = Widgets(
    list: (int, Key) -> (int, bool),
    line: (Bytes, Key) -> (Bytes, bool),
    area: (Bytes, Key) -> (Bytes, bool))

  /** The outcome of one key: the next state, whether to quit, and the store file written, if any. */
  datatype Reply = Reply(next: Model, quit: bool, written: Option<Bytes>)

  /**
   * The program's own handling of a key, before any widget sees it: quit at
   * once, return a state at once (`Return`), or hand the key on to the
   * widgets with the state reached so far (`Pass`).
   */
  datatype Handled = Quit | Return(model: Model, written: Option<Bytes>) | Pass(model: Model, written: Option<Bytes>)

  /** What holds of every state the program can reach. */
  predicate Inv(m: Model) {
    && 0 <= m.currentField <= 2
    && (m.mode != Add ==> m.currentField == 0 && m.draft == Blank && m.input == [] && m.textarea == [])
    && m.draft.id == 0 && m.draft.code == []
    && (m.currentField == 0 ==> m.draft == Blank)
    && (m.currentField <= 1 ==> m.draft.language == [] && m.textarea == [])
    && 0 <= m.selectedItem
    && (m.selectedItem == 0 || m.selectedItem < |m.snippets|)
  }

  /**
   * The state at startup, over the collection loaded from the store file
   * (None when it cannot be opened): the menu, nothing being entered, the
   * menu cursor and the delete selection on the first row.
   */
  function Init(file: Option<Bytes>): (m: Model)
    ensures m.snippets == Store.Load(file) && m.mode == Menu
    ensures m.cursor == 0 && m.selectedItem == 0
    ensures Inv(m)
  {
    Model(Store.Load(file), Menu, [], [], 0, Blank, 0, 0)
  }

  /** Back to the menu, discarding the draft and both texts; nothing else changes. */
  function ResetState(m: Model): (r: Model)
    ensures r.mode == Menu && r.currentField == 0 && r.draft == Blank
    ensures r.input == [] && r.textarea == []
    ensures r.snippets == m.snippets && r.selectedItem == m.selectedItem && r.cursor == m.cursor
  {
    m.(mode := Menu, currentField := 0, draft := Blank, input := [], textarea := [])
  }

  /**
   * Whether the command of the last widget handed the key quits: the text
   * widget for the current field in the add mode, the menu list otherwise.
   */
  function WidgetQuits(m: Model, k: Key, w: Widgets): bool {
    if m.mode != Add then w.list(m.cursor, k).1
    else if m.currentField < 2 then w.line(m.input, k).1
    else w.area(m.textarea, k).1
  }

  /**
   * The key after the program's own handling: the menu list always sees it,
   * and in the add mode so does the widget for the current field. Only the
   * widgets' values change.
   */
  function Forward(m: Model, k: Key, w: Widgets, written: Option<Bytes>): (r: Reply)
    ensures r.written == written && r.quit == WidgetQuits(m, k, w)
    ensures r.next.snippets == m.snippets && r.next.mode == m.mode
    ensures r.next.currentField == m.currentField && r.next.draft == m.draft
    ensures r.next.selectedItem == m.selectedItem
    ensures r.next.cursor == w.list(m.cursor, k).0
    ensures m.mode != Add ==> r.next.input == m.input && r.next.textarea == m.textarea
    ensures m.mode == Add && m.currentField < 2 ==>
      r.next.input == w.line(m.input, k).0 && r.next.textarea == m.textarea
    ensures m.mode == Add && m.currentField >= 2 ==>
      r.next.textarea == w.area(m.textarea, k).0 && r.next.input == m.input
  {
    var m' := m.(cursor := w.list(m.cursor, k).0);
    var m'' :=
      if m'.mode != Add then m'
      else if m'.currentField < 2 then m'.(input := w.line(m'.input, k).0)
      else m'.(textarea := w.area(m'.textarea, k).0);
    Reply(m'', WidgetQuits(m, k, w), written)
  }

  function MenuKey(m: Model, k: Key): Handled
    requires m.mode == Menu
  {
    if k.CtrlC? then Quit
    else if !k.Enter? then Pass(m, None)
    else
      match SelectedItem(m.cursor)
      case Some(ViewSnippets) => Pass(m.(mode := View), None)
      case Some(AddSnippet) => Pass(m.(mode := Add, currentField := 0, draft := Blank, input := []), None)
      case Some(DeleteSnippet) => Pass(m.(mode := Delete, selectedItem := 0), None)
      case Some(QuitItem) => Quit
      case None => Pass(m, None)
  }

  function AddKey(m: Model, k: Key): Handled
    requires m.mode == Add
  {
    if k.Enter? then
      if m.currentField == 0 then
        Pass(m.(draft := m.draft.(name := m.input), input := [], currentField := 1), None)
      else if m.currentField == 1 then
        Pass(m.(draft := m.draft.(language := m.input), input := [], currentField := 2), None)
      else
        Pass(m, None)
    else if k.CtrlS? && m.currentField == 2 then
      var added := m.draft.(code := m.textarea, id := GenerateId(m.snippets));
      var snippets := m.snippets + [added];
      Return(ResetState(m.(snippets := snippets)), Some(Store.Save(snippets)))
    else
      Pass(m, None)
  }

  function DeleteKey(m: Model, k: Key): Handled
    requires m.mode == Delete
  {
    if k.Enter? then
      if 0 <= m.selectedItem < |m.snippets| then
        var snippets := RemoveAt(m.snippets, m.selectedItem);
        Pass(m.(snippets := snippets, mode := Menu, selectedItem := 0), Some(Store.Save(snippets)))
      else
        Pass(m.(mode := Menu, selectedItem := 0), None)
    else if k.Name() == "up" && m.selectedItem > 0 then
      Pass(m.(selectedItem := m.selectedItem - 1), None)
    else if k.Name() == "down" && m.selectedItem < |m.snippets| - 1 then
      Pass(m.(selectedItem := m.selectedItem + 1), None)
    else
      Pass(m, None)
  }

  /**
   * The program's own handling of one key. Esc outside the menu resets to
   * the menu before anything else; then a key named "q" quits from every
   * mode; then the mode handles the key.
   */
  function Handle(m: Model, k: Key): (h: Handled)
    ensures h.Quit? <==>
      || k.Name() == "q"
      || (m.mode == Menu && (k.CtrlC? || (k.Enter? && SelectedItem(m.cursor) == Some(QuitItem))))
    ensures !h.Quit? && h.written.Some? ==> h.written.value == Store.Save(h.model.snippets)
    ensures !h.Quit? && h.model.snippets != m.snippets ==> h.written.Some?
    ensures Inv(m) && !h.Quit? ==> Inv(h.model)
  {
    if k.Esc? && m.mode != Menu then Return(ResetState(m), None)
    else if k.Name() == "q" then Quit
    else
      match m.mode
      case Menu => MenuKey(m, k)
      case Add => AddKey(m, k)
      case Delete => DeleteKey(m, k)
      case View => Pass(m, None)
  }

  /**
   * One key event: the program's own handling, then, unless that returned
   * early, the widgets. The reply quits when the program quits or when the
   * last widget handed the key returns a quitting command. Whenever the
   * collection changes the whole store is rewritten from it.
   */
  function Update(m: Model, k: Key, w: Widgets): (r: Reply)
    ensures r.written.Some? ==> r.written.value == Store.Save(r.next.snippets)
    ensures r.next.snippets != m.snippets ==> r.written.Some?
    ensures Handle(m, k).Quit? ==> r.quit && r.next == m && r.written.None?
    ensures Handle(m, k).Return? ==> !r.quit
    ensures Inv(m) ==> Inv(r.next)
  {
    match Handle(m, k)
    case Quit => Reply(m, true, None)
    case Return(m', written) => Reply(m', false, written)
    case Pass(m', written) => Forward(m', k, w, written)
  }

  /** The keys in order, up to and including one that quits. */
  function Run(m: Model, keys: seq<Key>, w: Widgets): Model
    decreases |keys|
  {
    if |keys| == 0 then m
    else
      var r := Update(m, keys[0], w);
      if r.quit then r.next else Run(r.next, keys[1..], w)
  }

  // ----- Global keys -----

  /** Esc outside the menu goes back to the menu, clearing the transient fields and keeping the collection. */
  lemma EscLeavesToMenu(m: Model, w: Widgets)
    requires m.mode != Menu
    ensures var r := Update(m, Esc, w);
      && !r.quit && r.written.None?
      && r.next.mode == Menu && r.next.currentField == 0 && r.next.draft == Blank
      && r.next.input == [] && r.next.textarea == []
      && r.next.snippets == m.snippets
      && r.next.selectedItem == m.selectedItem && r.next.cursor == m.cursor
  {
  }

  /**
   * Esc in the menu is not handled by the program: only the menu list sees
   * it, and the program quits exactly when the list's command does.
   */
  lemma EscInMenu(m: Model, w: Widgets)
    requires m.mode == Menu
    ensures Update(m, Esc, w) == Reply(m.(cursor := w.list(m.cursor, Esc).0), w.list(m.cursor, Esc).1, None)
  {
  }

  /** A key named "q" quits from every mode, the add step's text fields included, changing nothing. */
  lemma QuitKey(m: Model, k: Key, w: Widgets)
    requires k.Name() == "q"
    ensures var r := Update(m, k, w); r.quit && r.next == m && r.written.None?
  {
  }

  /**
   * The ways to quit: "q" anywhere, Ctrl+C or the Quit entry in the menu,
   * or a quitting command from the widget that last saw a key the program
   * passed on.
   */
  lemma QuitExactly(m: Model, k: Key, w: Widgets)
    ensures Update(m, k, w).quit <==>
      || k.Name() == "q"
      || (m.mode == Menu && (k.CtrlC? || (k.Enter? && SelectedItem(m.cursor) == Some(QuitItem))))
      || (Handle(m, k).Pass? && WidgetQuits(Handle(m, k).model, k, w))
  {
  }

  /**
   * Enter in the menu confirms the entry under the cursor: View, Add and
   * Delete enter their mode, Add with field 0, a blank draft and a cleared
   * input, Delete with the selection on the first row; off the entries the
   * menu stays. None of them touches the collection or the store.
   */
  lemma MenuEnter(m: Model, w: Widgets)
    requires m.mode == Menu
    ensures var r := Update(m, Enter, w);
      && (SelectedItem(m.cursor) == Some(ViewSnippets) ==> r.next.mode == View)
      && (SelectedItem(m.cursor) == Some(AddSnippet) ==>
            && r.next.mode == Add && r.next.currentField == 0 && r.next.draft == Blank
            && r.next.input == w.line([], Enter).0)
      && (SelectedItem(m.cursor) == Some(DeleteSnippet) ==> r.next.mode == Delete && r.next.selectedItem == 0)
      && (SelectedItem(m.cursor).None? ==> r.next.mode == Menu)
      && (SelectedItem(m.cursor) == Some(QuitItem) ==> r.quit && r.next == m)
      && r.next.snippets == m.snippets && r.written.None?
  {
  }

  /** The view mode is read-only: it keeps the collection, writes nothing, and only Esc leaves it. */
  lemma ViewIsReadOnly(m: Model, k: Key, w: Widgets)
    requires m.mode == View
    ensures var r := Update(m, k, w);
      && r.next.snippets == m.snippets && r.written.None?
      && (r.next.mode == Menu <==> k.Esc?)
      && (!k.Esc? ==> r.next.mode == View)
  {
  }

  // ----- Add -----

  /** Enter on the name field stores the name, clears the input and moves to the language field. */
  lemma AddEnterName(m: Model, w: Widgets)
    requires m.mode == Add && m.currentField == 0
    ensures var r := Update(m, Enter, w);
      && r.quit == w.line([], Enter).1 && r.written.None? && r.next.snippets == m.snippets
      && r.next.mode == Add && r.next.currentField == 1
      && r.next.draft == m.draft.(name := m.input)
      && r.next.input == w.line([], Enter).0
  {
  }

  /** Enter on the language field stores the language, clears the input and moves to the code field. */
  lemma AddEnterLanguage(m: Model, w: Widgets)
    requires m.mode == Add && m.currentField == 1
    ensures var r := Update(m, Enter, w);
      && r.quit == w.area(m.textarea, Enter).1 && r.written.None? && r.next.snippets == m.snippets
      && r.next.mode == Add && r.next.currentField == 2
      && r.next.draft == m.draft.(language := m.input)
      && r.next.input == []
      && r.next.textarea == w.area(m.textarea, Enter).0
  {
  }

  /** Ctrl+S before the code field does nothing to the collection, the store or the field. */
  lemma SaveNeedsCodeField(m: Model, w: Widgets)
    requires m.mode == Add && 0 <= m.currentField < 2
    ensures var r := Update(m, CtrlS, w);
      && r.quit == w.line(m.input, CtrlS).1 && r.written.None? && r.next.snippets == m.snippets
      && r.next.mode == Add && r.next.currentField == m.currentField && r.next.draft == m.draft
  {
  }

  /**
   * Ctrl+S on the code field appends exactly one snippet, built from the
   * draft and the editor's text with the generated id, keeps the existing
   * snippets, writes the store and returns to the menu.
   */
  lemma SaveAppends(m: Model, w: Widgets)
    requires m.mode == Add && m.currentField == 2
    ensures var r := Update(m, CtrlS, w);
      && !r.quit
      && |r.next.snippets| == |m.snippets| + 1
      && r.next.snippets[..|m.snippets|] == m.snippets
      && (var s := r.next.snippets[|m.snippets|];
          && s.name == m.draft.name && s.language == m.draft.language && s.code == m.textarea
          && s.id == GenerateId(m.snippets)
          && (forall i :: 0 <= i < |m.snippets| ==> m.snippets[i].id < s.id))
      && r.written == Some(Store.Save(r.next.snippets))
      && r.next.mode == Menu && r.next.currentField == 0 && r.next.draft == Blank
      && r.next.input == [] && r.next.textarea == []
  {
  }

  // ----- Delete -----

  /** Enter on a row in range removes exactly that snippet, keeps the others in order, writes the store and returns to the menu. */
  lemma DeleteInRange(m: Model, w: Widgets)
    requires m.mode == Delete && 0 <= m.selectedItem < |m.snippets|
    ensures var r := Update(m, Enter, w); var k := m.selectedItem;
      && r.quit == w.list(m.cursor, Enter).1
      && |r.next.snippets| == |m.snippets| - 1
      && (forall i :: 0 <= i < k ==> r.next.snippets[i] == m.snippets[i])
      && (forall i :: k <= i < |r.next.snippets| ==> r.next.snippets[i] == m.snippets[i + 1])
      && r.written == Some(Store.Save(r.next.snippets))
      && r.next.mode == Menu && r.next.selectedItem == 0
  {
  }

  /** Enter with the selection out of range, as on an empty collection, changes nothing and writes nothing. */
  lemma DeleteOutOfRange(m: Model, w: Widgets)
    requires m.mode == Delete && !(0 <= m.selectedItem < |m.snippets|)
    ensures var r := Update(m, Enter, w);
      && r.quit == w.list(m.cursor, Enter).1 && r.written.None? && r.next.snippets == m.snippets
      && r.next.mode == Menu && r.next.selectedItem == 0
  {
  }

  /**
   * Up moves the selection one row up unless it is on the first row, down
   * one row down unless it is on the last; any other key leaves it. The
   * selection stays on the list and nothing is written.
   */
  lemma DeleteNavigation(m: Model, k: Key, w: Widgets)
    requires m.mode == Delete && !k.Enter? && !k.Esc? && k.Name() != "q"
    requires 0 <= m.selectedItem && (m.selectedItem == 0 || m.selectedItem < |m.snippets|)
    ensures var r := Update(m, k, w);
      && r.quit == w.list(m.cursor, k).1 && r.written.None? && r.next.snippets == m.snippets
      && r.next.mode == Delete
      && 0 <= r.next.selectedItem && (r.next.selectedItem == 0 || r.next.selectedItem < |m.snippets|)
      && (k.Name() == "up" ==>
            r.next.selectedItem == (if m.selectedItem > 0 then m.selectedItem - 1 else m.selectedItem))
      && (k.Name() == "down" ==>
            r.next.selectedItem == (if m.selectedItem < |m.snippets| - 1 then m.selectedItem + 1 else m.selectedItem))
      && (k.Name() != "up" && k.Name() != "down" ==> r.next.selectedItem == m.selectedItem)
  {
  }

  // ----- Whole-machine properties -----

  /**
   * A key the program does not act on goes to the widgets with the state
   * unchanged: in the menu anything but Enter and Ctrl+C, in the view mode
   * anything but Esc and "q", in the add mode anything but Enter on the name
   * or language field and Ctrl+S on the code field, and in the delete mode
   * anything but Enter, up and down. So typed text only ever reaches the
   * widgets, and on the code field every key but Ctrl+S goes to the editor.
   */
  lemma PassesUnhandled(m: Model, k: Key, w: Widgets)
    requires k.Name() != "q" && !(k.Esc? && m.mode != Menu)
    requires m.mode == Menu ==> !k.Enter? && !k.CtrlC?
    requires m.mode == Add ==> !(k.Enter? && m.currentField < 2) && !(k.CtrlS? && m.currentField == 2)
    requires m.mode == Delete ==> !k.Enter? && k.Name() != "up" && k.Name() != "down"
    ensures Update(m, k, w) == Forward(m, k, w, None)
  {
  }

  /** The store is written exactly by a save on the code field and by a delete of a row in range. */
  lemma WritesExactly(m: Model, k: Key, w: Widgets)
    ensures Update(m, k, w).written.Some? <==>
      || (m.mode == Add && k.CtrlS? && m.currentField == 2)
      || (m.mode == Delete && k.Enter? && 0 <= m.selectedItem < |m.snippets|)
  {
    UpdateWritten(m, k, w);
    if k.Esc? && m.mode != Menu {
    } else if k.Name() == "q" {
    } else {
      match m.mode
      case Menu =>
        assert Handle(m, k) == MenuKey(m, k);
      case View =>
      case Add =>
        assert Handle(m, k) == AddKey(m, k);
      case Delete =>
        assert Handle(m, k) == DeleteKey(m, k);
    }
  }

  lemma UpdateWritten(m: Model, k: Key, w: Widgets)
    ensures Update(m, k, w).written == (if Handle(m, k).Quit? then None else Handle(m, k).written)
  {
  }

  /** Every key keeps ids unique. */
  lemma UpdateKeepsUniqueIds(m: Model, k: Key, w: Widgets)
    requires UniqueIds(m.snippets)
    ensures UniqueIds(Update(m, k, w).next.snippets)
  {
    var r := Update(m, k, w);
    if m.mode == Add && k.CtrlS? && m.currentField == 2 {
      var added := m.draft.(code := m.textarea, id := GenerateId(m.snippets));
      assert r.next.snippets == m.snippets + [added];
      AppendFreshKeepsUnique(m.snippets, added);
    } else if m.mode == Delete && k.Enter? && 0 <= m.selectedItem < |m.snippets| {
      assert r.next.snippets == RemoveAt(m.snippets, m.selectedItem);
      RemoveKeepsUnique(m.snippets, m.selectedItem);
    } else {
      WritesExactly(m, k, w);
      assert r.next.snippets == m.snippets;
    }
  }

  /** Any sequence of keys keeps the invariant and unique ids. */
  lemma {:induction false} RunKeepsInv(m: Model, keys: seq<Key>, w: Widgets)
    requires Inv(m) && UniqueIds(m.snippets)
    ensures Inv(Run(m, keys, w)) && UniqueIds(Run(m, keys, w).snippets)
    decreases |keys|
  {
    if |keys| > 0 {
      UpdateKeepsUniqueIds(m, keys[0], w);
      var r := Update(m, keys[0], w);
      if !r.quit {
        RunKeepsInv(r.next, keys[1..], w);
      }
    }
  }

  /** A store written after a change loads back as the collection in memory, when every snippet is storable. */
  lemma WrittenStoreReloads(m: Model, k: Key, w: Widgets)
    requires var r := Update(m, k, w); forall i :: 0 <= i < |r.next.snippets| ==> Store.Storable(r.next.snippets[i])
    ensures var r := Update(m, k, w); r.written.Some? ==> Store.Load(r.written) == r.next.snippets
  {
    var r := Update(m, k, w);
    Store.LoadSave(r.next.snippets);
  }
}

=== FILE: base64.dfy ===
/**
 * Standard base64 with padding, as defined in section 4 of RFC 4648: the
 * encoding the store uses for the code of each snippet.
 */
module Base64 {
  import opened Wrappers
  import opened Text

  const Pad: byte := 61  // '='

  /** The alphabet letter for a 6-bit value: A-Z, a-z, 0-9, '+', '/'. */
  function Letter(v: int): (c: byte)
    requires 0 <= v < 64
    ensures c != Pad
  {
    if v < 26 then 65 + v
    else if v < 52 then 97 + (v - 26)
    else if v < 62 then 48 + (v - 52)
    else if v == 62 then 43
    else 47
  }

  /** The 6-bit value a letter stands for; None for every other byte, the pad included. */
  function ValueOf(c: byte): (r: Option<int>)
    ensures r.Some? ==> 0 <= r.value < 64 && Letter(r.value) == c
    ensures r.None? ==> forall v :: 0 <= v < 64 ==> Letter(v) != c
  {
    if 65 <= c <= 90 then Some(c - 65)
    else if 97 <= c <= 122 then Some(c - 97 + 26)
    else if 48 <= c <= 57 then Some(c - 48 + 52)
    else if c == 43 then Some(62)
    else if c == 47 then Some(63)
    else None
  }

  /** Bytes an encoder may emit: the 64 letters and the pad. */
  predicate InAlphabet(c: byte) {
    ValueOf(c).Some? || c == Pad
  }

  lemma ValueOfLetter(v: int)
    requires 0 <= v < 64
    ensures ValueOf(Letter(v)) == Some(v)
  {
  }

  /** No alphabet byte is a field delimiter or a line break. */
  lemma AlphabetIsLineSafe(c: byte)
    requires InAlphabet(c)
    ensures c != Pipe && c != Newline && c != CarriageReturn
  {
  }

  /** The four letters for three input bytes. */
  function EncodeTriple(a: byte, b: byte, c: byte): Bytes {
    [Letter(a / 4), Letter(a % 4 * 16 + b / 16), Letter(b % 16 * 4 + c / 64), Letter(c % 64)]
  }

  /** Encode `data`: full groups of three bytes, then a padded final group of one or two. */
  function Encode(data: Bytes): (text: Bytes)
    ensures |text| == (|data| + 2) / 3 * 4
    ensures forall i :: 0 <= i < |text| ==> InAlphabet(text[i])
    decreases |data|
  {
    if |data| == 0 then []
    else if |data| == 1 then
      [Letter(data[0] / 4), Letter(data[0] % 4 * 16), Pad, Pad]
    else if |data| == 2 then
      [Letter(data[0] / 4), Letter(data[0] % 4 * 16 + data[1] / 16), Letter(data[1] % 16 * 4), Pad]
    else
      EncodeTriple(data[0], data[1], data[2]) + Encode(data[3..])
  }

  /**
   * Decode one group of four bytes. Padding may only appear in the final
   * group (`last`), as "xx==" for one byte or "xxx=" for two. Bits of the
   * last letter that fall beyond the final byte are ignored, as a
   * non-strict decoder does.
   */
  function DecodeQuantum(q0: byte, q1: byte, q2: byte, q3: byte, last: bool): Option<Bytes> {
    var v0, v1, v2, v3 := ValueOf(q0), ValueOf(q1), ValueOf(q2), ValueOf(q3);
    if v0.None? || v1.None? then None
    else if q2 == Pad then
      if q3 == Pad && last then Some([v0.value * 4 + v1.value / 16]) else None
    else if v2.None? then None
    else if q3 == Pad then
      if last then Some([v0.value * 4 + v1.value / 16, v1.value % 16 * 16 + v2.value / 4]) else None
    else if v3.None? then None
    else
      Some([v0.value * 4 + v1.value / 16, v1.value % 16 * 16 + v2.value / 4, v2.value % 4 * 64 + v3.value])
  }

  /** Decode padded base64; None when the length is not a multiple of four or a group is malformed. */
  function Decode(text: Bytes): (r: Option<Bytes>)
    ensures r.Some? ==> |text| % 4 == 0 && |r.value| <= |text| / 4 * 3
    ensures r.Some? ==> forall i :: 0 <= i < |text| ==> InAlphabet(text[i])
    decreases |text|
  {
    if |text| == 0 then Some([])
    else if |text| < 4 then None
    else
      match DecodeQuantum(text[0], text[1], text[2], text[3], |text| == 4)
      case None => None
      case Some(head) =>
        match Decode(text[4..])
        case None => None
        case Some(tail) => Some(head + tail)
  }

  /** The six bits taken from two adjacent bytes decode to the parts they came from. */
  lemma FirstByte(a: byte, b: byte)
    ensures (a / 4) * 4 + (a % 4 * 16 + b / 16) / 16 == a
    ensures (a % 4 * 16 + b / 16) % 16 == b / 16
  {
    var x1 := a % 4 * 16 + b / 16;
    assert 0 <= b / 16 < 16;
    DivMod16(x1, a % 4, b / 16);
  }

  lemma SecondByte(b: byte, c: byte)
    ensures (b / 16) * 16 + (b % 16 * 4 + c / 64) / 4 == b
    ensures (b % 16 * 4 + c / 64) % 4 == c / 64
  {
    var x2 := b % 16 * 4 + c / 64;
    assert 0 <= c / 64 < 4;
    DivMod4(x2, b % 16, c / 64);
  }

  lemma DivMod16(x: int, q: int, r: int)
    requires x == q * 16 + r && 0 <= r < 16 && 0 <= q
    ensures x / 16 == q && x % 16 == r
  {
  }

  lemma DivMod4(x: int, q: int, r: int)
    requires x == q * 4 + r && 0 <= r < 4 && 0 <= q
    ensures x / 4 == q && x % 4 == r
  {
  }

  /** Four letters decode to the three bytes their 24 bits spell. */
  lemma DecodeLetters(x0: int, x1: int, x2: int, x3: int, last: bool)
    requires 0 <= x0 < 64 && 0 <= x1 < 64 && 0 <= x2 < 64 && 0 <= x3 < 64
    ensures DecodeQuantum(Letter(x0), Letter(x1), Letter(x2), Letter(x3), last)
         == Some([x0 * 4 + x1 / 16, x1 % 16 * 16 + x2 / 4, x2 % 4 * 64 + x3])
  {
    ValueOfLetter(x0);
    ValueOfLetter(x1);
    ValueOfLetter(x2);
    ValueOfLetter(x3);
  }

  lemma TripleRoundTrip(a: byte, b: byte, c: byte, last: bool)
    ensures var t := EncodeTriple(a, b, c); DecodeQuantum(t[0], t[1], t[2], t[3], last) == Some([a, b, c])
  {
    var x0, x1, x2, x3 := a / 4, a % 4 * 16 + b / 16, b % 16 * 4 + c / 64, c % 64;
    FirstByte(a, b);
    SecondByte(b, c);
    assert x0 * 4 + x1 / 16 == a;
    assert x1 % 16 * 16 + x2 / 4 == b;
    assert x2 % 4 * 64 + x3 == c;
    DecodeLetters(x0, x1, x2, x3, last);
  }

  /** Decoding a text whose first group and remainder both decode. */
  lemma DecodeStep(text: Bytes, head: Bytes, tail: Bytes)
    requires |text| >= 4
    requires DecodeQuantum(text[0], text[1], text[2], text[3], |text| == 4) == Some(head)
    requires Decode(text[4..]) == Some(tail)
    ensures Decode(text) == Some(head + tail)
  {
  }

  lemma RoundTripOne(a: byte)
    ensures Decode(Encode([a])) == Some([a])
  {
    var text := Encode([a]);
    ValueOfLetter(a / 4);
    ValueOfLetter(a % 4 * 16);
    DivMod16(a % 4 * 16, a % 4, 0);
    assert text == [Letter(a / 4), Letter(a % 4 * 16), Pad, Pad];
    assert text[4..] == [];
    DecodeStep(text, [a], []);
    assert [a] + [] == [a];
  }

  lemma RoundTripTwo(a: byte, b: byte)
    ensures Decode(Encode([a, b])) == Some([a, b])
  {
    var text := Encode([a, b]);
    ValueOfLetter(a / 4);
    ValueOfLetter(a % 4 * 16 + b / 16);
    ValueOfLetter(b % 16 * 4);
    FirstByte(a, b);
    DivMod4(b % 16 * 4, b % 16, 0);
    assert text == [Letter(a / 4), Letter(a % 4 * 16 + b / 16), Letter(b % 16 * 4), Pad];
    assert text[4..] == [];
    DecodeStep(text, [a, b], []);
    assert [a, b] + [] == [a, b];
  }

  /** Decoding the encoding of any byte sequence gives the bytes back. */
  lemma {:induction false} RoundTrip(data: Bytes)
    ensures Decode(Encode(data)) == Some(data)
    decreases |data|
  {
    if |data| == 1 {
      assert data == [data[0]];
      RoundTripOne(data[0]);
    } else if |data| == 2 {
      assert data == [data[0], data[1]];
      RoundTripTwo(data[0], data[1]);
    } else if |data| >= 3 {
      var text := Encode(data);
      var rest := data[3..];
      var head := EncodeTriple(data[0], data[1], data[2]);
      assert text == head + Encode(rest);
      assert text[4..] == Encode(rest);
      TripleRoundTrip(data[0], data[1], data[2], |text| == 4);
      assert text[0] == head[0] && text[1] == head[1] && text[2] == head[2] && text[3] == head[3];
      RoundTrip(rest);
      DecodeStep(text, [data[0], data[1], data[2]], rest);
      assert data == [data[0], data[1], data[2]] + rest;
    }
  }

  /** The encoding never contains a field delimiter or a line break, and never ends in a carriage return. */
  lemma EncodeIsLineSafe(data: Bytes)
    ensures Pipe !in Encode(data) && Newline !in Encode(data)
    ensures NoTrailingCR(Encode(data))
  {
    var text := Encode(data);
    forall i | 0 <= i < |text|
      ensures text[i] != Pipe && text[i] != Newline && text[i] != CarriageReturn
    {
      AlphabetIsLineSafe(text[i]);
    }
  }
}

=== FILE: scanner.dfy ===
/**
 * The store file as lines: what one Fprintf per record writes, and how
 * bufio.Scanner with ScanLines reads it back.
 */
module Scanner {
  import opened Wrappers
  import opened Text
  import Strings

  /** A trailing carriage return is dropped from every line read. */
  function DropCR(line: Bytes): (r: Bytes)
    ensures NoTrailingCR(line) ==> r == line
    ensures !NoTrailingCR(line) ==> r + [CarriageReturn] == line
  {
    if |line| > 0 && line[|line| - 1] == CarriageReturn then line[..|line| - 1] else line
  }

  /**
   * The lines of `data`: each ends at a line feed, the last may end at the
   * end of the data instead, and nothing follows a final line feed.
   */
  function ScanLines(data: Bytes): (lines: seq<Bytes>)
    ensures |data| == 0 <==> |lines| == 0
    decreases |data|
  {
    if |data| == 0 then []
    else
      match Strings.Index(data, [Newline])
      case None => [DropCR(data)]
      case Some(i) => [DropCR(data[..i])] + ScanLines(data[i + 1..])
  }

  /** Each line followed by a line feed, one after another. */
  function Unlines(lines: seq<Bytes>): Bytes
    decreases |lines|
  {
    if |lines| == 0 then [] else lines[0] + [Newline] + Unlines(lines[1..])
  }

  /** Lines without line feeds or a trailing carriage return are read back exactly as written. */
  lemma {:induction false} ScanUnlines(lines: seq<Bytes>)
    requires forall i :: 0 <= i < |lines| ==> Newline !in lines[i] && NoTrailingCR(lines[i])
    ensures ScanLines(Unlines(lines)) == lines
    decreases |lines|
  {
    if |lines| > 0 {
      var l := lines[0];
      var data := Unlines(lines);
      var rest := Unlines(lines[1..]);
      assert data == l + [Newline] + rest;
      assert Strings.OccursAt(data, [Newline], |l|) by {
        assert data[|l|..|l| + 1] == [Newline];
      }
      forall j | 0 <= j < |l|
        ensures !Strings.OccursAt(data, [Newline], j)
      {
        assert data[j..j + 1] == [l[j]];
      }
      assert Strings.Index(data, [Newline]) == Some(|l|);
      assert data[..|l|] == l;
      assert data[|l| + 1..] == rest;
      ScanUnlines(lines[1..]);
    }
  }
}

=== FILE: snippets.dfy ===
/** Snippets and the collection-level operations on them: fresh ids and removal. */
module Snippets {
  import opened Text

  /** One stored snippet; `code` may hold any bytes, line feeds included. */
  datatype Snippet = Snippet(id: int, name: Bytes, language: Bytes, code: Bytes)

  /** The zero snippet a new draft starts from. */
  const Blank: Snippet := Snippet(0, [], [], [])

  /** The largest id in the collection, or 0 when no id is larger, scanning in order. */
  function MaxId(snips: seq<Snippet>): (r: int)
    ensures r >= 0
    ensures forall i :: 0 <= i < |snips| ==> snips[i].id <= r
    ensures r == 0 || exists i :: 0 <= i < |snips| && snips[i].id == r
    decreases |snips|
  {
    if |snips| == 0 then 0
    else
      var m := MaxId(snips[..|snips| - 1]);
      var last := snips[|snips| - 1].id;
      if last > m then last else m
  }

  /**
   * The id a new snippet receives: one more than the largest id, and 1 for
   * a collection with no positive id.
   */
  function GenerateId(snips: seq<Snippet>): (r: int)
    ensures r >= 1
    ensures forall i :: 0 <= i < |snips| ==> snips[i].id < r
    ensures r == 1 || exists i :: 0 <= i < |snips| && snips[i].id == r - 1
  {
    MaxId(snips) + 1
  }

  /** No two snippets share an id. */
  predicate UniqueIds(snips: seq<Snippet>) {
    forall i, j :: 0 <= i < j < |snips| ==> snips[i].id != snips[j].id
  }

  /** The collection without its `k`-th snippet, the others in their original order. */
  function RemoveAt(snips: seq<Snippet>, k: int): (r: seq<Snippet>)
    requires 0 <= k < |snips|
    ensures |r| == |snips| - 1
    ensures forall i :: 0 <= i < k ==> r[i] == snips[i]
    ensures forall i :: k <= i < |r| ==> r[i] == snips[i + 1]
    ensures multiset(r) + multiset{snips[k]} == multiset(snips)
  {
    assert snips == snips[..k] + [snips[k]] + snips[k + 1..];
    snips[..k] + snips[k + 1..]
  }

  /** Appending a snippet that carries a generated id keeps ids unique. */
  lemma AppendFreshKeepsUnique(snips: seq<Snippet>, s: Snippet)
    requires UniqueIds(snips)
    requires s.id == GenerateId(snips)
    ensures UniqueIds(snips + [s])
  {
    var t := snips + [s];
    forall i, j | 0 <= i < j < |t|
      ensures t[i].id != t[j].id
    {
      if j == |snips| {
        assert t[i] == snips[i];
      } else {
        assert t[i] == snips[i] && t[j] == snips[j];
      }
    }
  }

  /** Removing a snippet keeps ids unique. */
  lemma RemoveKeepsUnique(snips: seq<Snippet>, k: int)
    requires UniqueIds(snips)
    requires 0 <= k < |snips|
    ensures UniqueIds(RemoveAt(snips, k))
  {
    var r := RemoveAt(snips, k);
    forall i, j | 0 <= i < j < |r|
      ensures r[i].id != r[j].id
    {
      var i' := if i < k then i else i + 1;
      var j' := if j < k then j else j + 1;
      assert r[i] == snips[i'] && r[j] == snips[j'];
    }
  }

  /**
   * Ids are recomputed from the live collection, so an id can be handed out
   * again: with ids 1, 2, 3, deleting the third snippet makes 3 the next id.
   */
  lemma IdReuseAfterDelete(a: Snippet, b: Snippet, c: Snippet)
    requires a.id == 1 && b.id == 2 && c.id == 3
    ensures GenerateId(RemoveAt([a, b, c], 2)) == 3
  {
    assert RemoveAt([a, b, c], 2) == [a, b];
    assert [a, b][..1] == [a];
  }
}

=== FILE: store.dfy ===
/**
 * The snippet store: one text record per snippet, "<id>|||<name>|||<language>|||<code in base64>",
 * written whole on every save and read back line by line on load.
 */
module Store {
  import opened Wrappers
  import opened Text
  import opened Snippets
  import Strings
  import Strconv
  import Base64
  import Scanner

  /** The field delimiter "|||". */
  const Delim: Bytes := [Pipe, Pipe, Pipe]

  /**
   * The record for one snippet, without its line feed: the printed id, the
   * name, the language and the base64 of the code, joined by the delimiter.
   * A storable snippet's record is a single line.
   */
  function FormatLine(s: Snippet): (r: Bytes)
    ensures r == Strings.Join([Strconv.Itoa(s.id), s.name, s.language, Base64.Encode(s.code)], Delim)
    ensures Storable(s) ==> Newline !in r && NoTrailingCR(r)
  {
    var id, code := Strconv.Itoa(s.id), Base64.Encode(s.code);
    JoinFour(id, s.name, s.language, code, Delim);
    Base64.EncodeIsLineSafe(s.code);
    var r := id + Delim + s.name + Delim + s.language + Delim + code;
    assert |code| > 0 ==> r[|r| - 1] == code[|code| - 1];
    assert |code| == 0 ==> r[|r| - 1] == Pipe;
    r
  }

  lemma JoinFour(a: Bytes, b: Bytes, c: Bytes, d: Bytes, sep: Bytes)
    ensures Strings.Join([a, b, c, d], sep) == a + sep + b + sep + c + sep + d
  {
    assert [a, b, c, d][1..] == [b, c, d];
    assert [b, c, d][1..] == [c, d];
    assert [c, d][1..] == [d];
    assert Strings.Join([d], sep) == d;
    assert Strings.Join([c, d], sep) == c + sep + d;
    assert Strings.Join([b, c, d], sep) == b + sep + (c + sep + d);
  }

  /** The records of a collection, one per snippet, in collection order. */
  function SaveLines(snips: seq<Snippet>): (lines: seq<Bytes>)
    ensures |lines| == |snips|
    ensures forall i :: 0 <= i < |snips| ==> lines[i] == FormatLine(snips[i])
    decreases |snips|
  {
    if |snips| == 0 then [] else [FormatLine(snips[0])] + SaveLines(snips[1..])
  }

  /**
   * The whole store file after a save: empty exactly for an empty
   * collection, and, when every snippet is storable, read back by the line
   * scanner as exactly the records.
   */
  function Save(snips: seq<Snippet>): (file: Bytes)
    ensures |file| == 0 <==> |snips| == 0
    ensures (forall i :: 0 <= i < |snips| ==> Storable(snips[i])) ==> Scanner.ScanLines(file) == SaveLines(snips)
  {
    ScanSavedLines(snips);
    Scanner.Unlines(SaveLines(snips))
  }

  lemma ScanSavedLines(snips: seq<Snippet>)
    ensures (forall i :: 0 <= i < |snips| ==> Storable(snips[i])) ==>
      Scanner.ScanLines(Scanner.Unlines(SaveLines(snips))) == SaveLines(snips)
  {
    if forall i :: 0 <= i < |snips| ==> Storable(snips[i]) {
      var lines := SaveLines(snips);
      forall i | 0 <= i < |lines|
        ensures Newline !in lines[i] && NoTrailingCR(lines[i])
      {
        assert Storable(snips[i]);
      }
      Scanner.ScanUnlines(lines);
    }
  }

  /**
   * A record read back: exactly four fields, or the line is skipped (None).
   * An id that does not parse becomes 0, and code that is not valid base64
   * becomes empty.
   */
  function ParseLine(line: Bytes): (r: Option<Snippet>)
    ensures var parts := Strings.Split(line, Delim);
      && (r.Some? <==> |parts| == 4)
      && (r.Some? ==> r.value.name == parts[1] && r.value.language == parts[2])
      && (r.Some? ==> r.value.id == (if Strconv.Atoi(parts[0]).Some? then Strconv.Atoi(parts[0]).value else 0))
      && (r.Some? && Base64.Decode(parts[3]).Some? ==> r.value.code == Base64.Decode(parts[3]).value)
      && (r.Some? && Base64.Decode(parts[3]).None? ==> r.value.code == [])
  {
    var parts := Strings.Split(line, Delim);
    if |parts| != 4 then None
    else
      Some(Snippet(
        Strconv.Atoi(parts[0]).GetOr(0),
        parts[1],
        parts[2],
        Base64.Decode(parts[3]).GetOr([])))
  }

  /** The snippets of the well-formed lines, in file order. */
  function LoadLines(lines: seq<Bytes>): (snips: seq<Snippet>)
    ensures |snips| <= |lines|
    decreases |lines|
  {
    if |lines| == 0 then []
    else
      match ParseLine(lines[0])
      case None => LoadLines(lines[1..])
      case Some(s) => [s] + LoadLines(lines[1..])
  }

  /**
   * The collection at startup: empty when the store cannot be opened (None)
   * or is empty, and otherwise at most one snippet per line of the file.
   */
  function Load(file: Option<Bytes>): (snips: seq<Snippet>)
    ensures file.None? ==> snips == []
    ensures file.Some? && |file.value| == 0 ==> snips == []
    ensures file.Some? ==> |snips| <= |Scanner.ScanLines(file.value)|
  {
    match file
    case None => []
    case Some(data) => LoadLines(Scanner.ScanLines(data))
  }

  /** A snippet whose name and language hold no '|' and no line feed. */
  predicate Storable(s: Snippet) {
    Pipe !in s.name && Newline !in s.name && Pipe !in s.language && Newline !in s.language
  }

  /** A storable snippet's record parses back to the same snippet. */
  lemma ParseFormatLine(s: Snippet)
    requires Storable(s)
    ensures ParseLine(FormatLine(s)) == Some(s)
  {
    var parts := [Strconv.Itoa(s.id), s.name, s.language, Base64.Encode(s.code)];
    Base64.EncodeIsLineSafe(s.code);
    Strings.SplitJoin(parts, Delim);
    Strconv.AtoiItoa(s.id);
    Base64.RoundTrip(s.code);
  }

  lemma {:induction false} LoadSaveLines(snips: seq<Snippet>)
    requires forall i :: 0 <= i < |snips| ==> Storable(snips[i])
    ensures LoadLines(SaveLines(snips)) == snips
    decreases |snips|
  {
    if |snips| > 0 {
      ParseFormatLine(snips[0]);
      var lines := SaveLines(snips);
      assert lines[1..] == SaveLines(snips[1..]);
      LoadSaveLines(snips[1..]);
    }
  }

  /** Loading what a save wrote gives back the same collection, in the same order. */
  lemma LoadSave(snips: seq<Snippet>)
    requires forall i :: 0 <= i < |snips| ==> Storable(snips[i])
    ensures Load(Some(Save(snips))) == snips
  {
    LoadSaveLines(snips);
  }

  /** Loading keeps file order: the lines of two files read as the two collections one after the other. */
  lemma {:induction false} LoadLinesAppend(a: seq<Bytes>, b: seq<Bytes>)
    ensures LoadLines(a + b) == LoadLines(a) + LoadLines(b)
    decreases |a|
  {
    if |a| == 0 {
      assert a + b == b;
    } else {
      assert (a + b)[0] == a[0];
      assert (a + b)[1..] == a[1..] + b;
      LoadLinesAppend(a[1..], b);
    }
  }

  /**
   * One line on its own: skipped exactly when it does not have four fields;
   * otherwise a snippet whose id is 0 when the first field is not a decimal
   * integer.
   */
  lemma LoadOneLine(line: Bytes)
    ensures var parts := Strings.Split(line, Delim);
      && (|LoadLines([line])| == 0 <==> |parts| != 4)
      && (|parts| == 4 && Strconv.Atoi(parts[0]).None? ==> LoadLines([line])[0].id == 0)
      && (|parts| == 4 ==> LoadLines([line])[0].name == parts[1] && LoadLines([line])[0].language == parts[2])
  {
    assert [line][1..] == [];
  }

  /** A well-formed record whose code field is valid base64 loads with exactly the decoded code. */
  lemma LoadDecodesCode(id: int, name: Bytes, language: Bytes, code: Bytes)
    requires Pipe !in name && Pipe !in language
    ensures LoadLines([Strconv.Itoa(id) + Delim + name + Delim + language + Delim + Base64.Encode(code)])
         == [Snippet(id, name, language, code)]
  {
    var s := Snippet(id, name, language, code);
    assert FormatLine(s) == Strconv.Itoa(id) + Delim + name + Delim + language + Delim + Base64.Encode(code);
    var parts := [Strconv.Itoa(id), name, language, Base64.Encode(code)];
    Base64.EncodeIsLineSafe(code);
    Strings.SplitJoin(parts, Delim);
    Strconv.AtoiItoa(id);
    Base64.RoundTrip(code);
    assert [FormatLine(s)][1..] == [];
  }
}

=== FILE: strconv.dfy ===
/** Decimal conversion of ids, as Go's strconv.Itoa and strconv.Atoi do it (ids are unbounded here). */
module Strconv {
  import opened Wrappers
  import opened Text

  predicate IsDigit(c: byte) {
    48 <= c <= 57
  }

  predicate AllDigits(s: Bytes) {
    forall i :: 0 <= i < |s| ==> IsDigit(s[i])
  }

  /** Decimal digits of `n`, most significant first, with no leading zero. */
  function Digits(n: nat): (r: Bytes)
    ensures |r| >= 1
    ensures AllDigits(r)
    ensures n > 0 ==> r[0] != 48
    ensures |r| > 1 ==> r[0] != 48
    decreases n
  {
    if n < 10 then [48 + n] else Digits(n / 10) + [48 + n % 10]
  }

  /** The value of a run of decimal digits. */
  function DigitsValue(s: Bytes): nat
    requires AllDigits(s)
    decreases |s|
  {
    if |s| == 0 then 0
    else
      assert IsDigit(s[|s| - 1]);
      DigitsValue(s[..|s| - 1]) * 10 + (s[|s| - 1] as int - 48)
  }

  /** strconv.Itoa: a minus sign for negative values, then the digits of the magnitude. */
  function Itoa(n: int): (r: Bytes)
    ensures Pipe !in r && Newline !in r
  {
    if n < 0 then [Minus] + Digits(-n) else Digits(n)
  }

  /**
   * strconv.Atoi: an optional '+' or '-' followed by at least one decimal
   * digit; anything else is a syntax error (None).
   */
  function Atoi(s: Bytes): (r: Option<int>)
    ensures r.Some? ==> 0 < |s|
  {
    if |s| == 0 then None
    else
      var signed := s[0] == Minus || s[0] == Plus;
      var body := if signed then s[1..] else s;
      if |body| == 0 then None
      else if !AllDigits(body) then None
      else
        var v: int := DigitsValue(body);
        Some(if s[0] == Minus then -v else v)
  }

  lemma {:induction false} DigitsValueOfDigits(n: nat)
    ensures DigitsValue(Digits(n)) == n
    decreases n
  {
    if n >= 10 {
      var d := Digits(n);
      assert d[..|d| - 1] == Digits(n / 10);
      DigitsValueOfDigits(n / 10);
    }
  }

  /** Every integer survives being written with Itoa and read back with Atoi. */
  lemma AtoiItoa(n: int)
    ensures Atoi(Itoa(n)) == Some(n)
  {
    var s := Itoa(n);
    if n < 0 {
      DigitsValueOfDigits(-n);
      assert s[1..] == Digits(-n);
    } else {
      DigitsValueOfDigits(n);
    }
  }

  /** A run of digits parses to its value, unsigned, after a '+', and negated after a '-'. */
  lemma AtoiAcceptsDigits(s: Bytes)
    requires |s| > 0 && AllDigits(s)
    ensures Atoi(s) == Some(DigitsValue(s))
    ensures Atoi([Plus] + s) == Some(DigitsValue(s))
    ensures Atoi([Minus] + s) == Some(-(DigitsValue(s) as int))
  {
    assert IsDigit(s[0]);
    AtoiSigned(Plus, s);
    AtoiSigned(Minus, s);
  }

  lemma AtoiSigned(sign: byte, s: Bytes)
    requires sign == Plus || sign == Minus
    requires |s| > 0 && AllDigits(s)
    ensures Atoi([sign] + s) == Some(if sign == Minus then -(DigitsValue(s) as int) else DigitsValue(s))
  {
    var t := [sign] + s;
    assert t[0] == sign && t[1..] == s;
  }

  /** A byte other than a digit, past the optional leading sign, makes Atoi fail. */
  lemma AtoiRejectsNonDigit(s: Bytes, k: int)
    requires 0 <= k < |s| && !IsDigit(s[k])
    requires k > 0 || (s[0] != Minus && s[0] != Plus)
    ensures Atoi(s) == None
  {
    if s[0] == Minus || s[0] == Plus {
      var body := s[1..];
      assert body[k - 1] == s[k];
      assert !AllDigits(body);
    } else {
      assert !AllDigits(s);
    }
  }
}

=== FILE: strings.dfy ===
/**
 * The part of Go's strings package the store uses, on byte strings: Index
 * and Split, which the loader calls, and Join, which only states the record
 * format (the writer prints each record with Fprintf).
 */
module Strings {
  import opened Wrappers
  import opened Text

  /** True when `sep` occurs in `s` starting at position `j`. */
  predicate OccursAt(s: Bytes, sep: Bytes, j: int) {
    0 <= j && j + |sep| <= |s| && s[j..j + |sep|] == sep
  }

  /** The first occurrence of `sep` in `s` at or after `from`. */
  function IndexFrom(s: Bytes, sep: Bytes, from: nat): (r: Option<nat>)
    ensures r.Some? ==> from <= r.value && OccursAt(s, sep, r.value)
    ensures r.Some? ==> forall j :: from <= j < r.value ==> !OccursAt(s, sep, j)
    ensures r.None? ==> forall j :: from <= j ==> !OccursAt(s, sep, j)
    decreases |s| - from
  {
    if from + |sep| > |s| then None
    else if s[from..from + |sep|] == sep then Some(from)
    else IndexFrom(s, sep, from + 1)
  }

  /** The first occurrence of `sep` in `s`, as strings.Index (and bytes.IndexByte for a one-byte `sep`). */
  function Index(s: Bytes, sep: Bytes): Option<nat> {
    IndexFrom(s, sep, 0)
  }

  /** A byte sequence that does not hold the first byte of `sep` holds no occurrence of `sep`. */
  lemma AbsentFirstByte(s: Bytes, sep: Bytes)
    requires |sep| > 0 && sep[0] !in s
    ensures Index(s, sep) == None
  {
    forall j | 0 <= j
      ensures !OccursAt(s, sep, j)
    {
      if j + |sep| <= |s| {
        assert s[j..j + |sep|][0] == s[j];
      }
    }
  }

  /**
   * strings.Split with a non-empty separator: the pieces between successive
   * non-overlapping occurrences of `sep`, found from the left.
   */
  function Split(s: Bytes, sep: Bytes): (parts: seq<Bytes>)
    requires |sep| > 0
    ensures |parts| >= 1
    decreases |s|
  {
    match Index(s, sep)
    case None => [s]
    case Some(i) => [s[..i]] + Split(s[i + |sep|..], sep)
  }

  /** strings.Join: the pieces with `sep` between each adjacent pair. */
  function Join(parts: seq<Bytes>, sep: Bytes): Bytes
    decreases |parts|
  {
    if |parts| == 0 then []
    else if |parts| == 1 then parts[0]
    else parts[0] + sep + Join(parts[1..], sep)
  }

  /** Joining the pieces of a split restores the original, whatever it held. */
  lemma {:induction false} JoinSplit(s: Bytes, sep: Bytes)
    requires |sep| > 0
    ensures Join(Split(s, sep), sep) == s
    decreases |s|
  {
    match Index(s, sep)
    case None =>
    case Some(i) =>
      var rest := s[i + |sep|..];
      var tail := Split(rest, sep);
      JoinSplit(rest, sep);
      var parts := Split(s, sep);
      assert parts == [s[..i]] + tail;
      assert parts[1..] == tail;
      assert Join(parts, sep) == s[..i] + sep + Join(tail, sep);
      assert s[i..i + |sep|] == sep;
      assert s == s[..i] + s[i..i + |sep|] + rest;
  }

  /**
   * Splitting a join gives the pieces back, provided no piece holds the first
   * byte of the separator.
   */
  lemma {:induction false} SplitJoin(parts: seq<Bytes>, sep: Bytes)
    requires |parts| >= 1 && |sep| > 0
    requires forall i :: 0 <= i < |parts| ==> sep[0] !in parts[i]
    ensures Split(Join(parts, sep), sep) == parts
    decreases |parts|
  {
    var s := Join(parts, sep);
    if |parts| == 1 {
      AbsentFirstByte(parts[0], sep);
    } else {
      var p := parts[0];
      var rest := Join(parts[1..], sep);
      assert s == p + sep + rest;
      assert OccursAt(s, sep, |p|) by {
        assert s[|p|..|p| + |sep|] == sep;
      }
      forall j | 0 <= j < |p|
        ensures !OccursAt(s, sep, j)
      {
        if j + |sep| <= |s| {
          assert s[j..j + |sep|][0] == s[j];
          assert s[j] == p[j];
        }
      }
      assert Index(s, sep) == Some(|p|);
      assert s[..|p|] == p;
      assert s[|p| + |sep|..] == rest;
      SplitJoin(parts[1..], sep);
    }
  }
}

=== FILE: text.dfy ===
/** Bytes, as Go strings and files hold them, and the few byte values the program names. */
module Text {

  type byte = x: int | 0 <= x < 256

  /** A Go string or file contents: a sequence of bytes. */
  type Bytes = seq<byte>

  const Newline: byte := 10         // '\n'
  const CarriageReturn: byte := 13  // '\r'
  const Plus: byte := 43            // '+'
  const Minus: byte := 45           // '-'
  const Pipe: byte := 124           // '|'

  /** True when the byte sequence does not end in a carriage return. */
  predicate NoTrailingCR(s: Bytes) {
    |s| == 0 || s[|s| - 1] != CarriageReturn
  }
}

=== FILE: wrappers.dfy ===
/** An optional value, used where the program either produces a value or reports failure. */
module Wrappers {

  datatype Option<+T> = None | Some(value: T) {

    /** The wrapped value, or `default` when there is none. */
    function GetOr(default: T): T {
      match this
      case Some(v) => v
      case None => default
    }
  }
}
